=== FILE: README.md ===
# Snipe bot core, modelled in Dafny

This project models the core of a small chat bot. The bot answers `!ping`. It also implements "snipe": when a message is deleted, the bot remembers it, and the `msnipe` command reports who wrote it, what it said and when.

The bot keeps two maps, both keyed by channel:

- **The recent-message cache** (`RecentCache`). Each channel has a FIFO buffer of at most 20 recent messages seen there: the last 20, less any that a delete has since taken out. Each entry holds the message id, author name, content and timestamp. A new message is pushed at the back. When the buffer then holds more than 20 entries, the front one is dropped.
- **The snipe store** (`SnipeStore`). Each channel has one slot holding the author, content and timestamp of the last deleted message the bot could resolve. Each write overwrites the slot.

The event handler (`Bot`) turns each platform event into one atomic transition of an immutable `Handler` value:

- `OnMessage`: caches the message first, whatever its content. Then it compares the content exactly against `!ping` (reply `Pong`) and `msnipe` (reply `Sniped(record)` or `NothingToSnipe`). The snipe store is only read.
- `OnDelete`: looks the id up in the channel's buffer and removes the first match. On a miss it asks the platform's own message cache, which is passed in as a function. If either lookup finds the message, the channel's snipe is overwritten. If neither does, nothing changes.

`Scenarios` replays whole streams of messages. It proves the FIFO window property: after any run, a channel's buffer is the last 20 of what it held before the run followed by the run's messages for that channel, in arrival order; from start-up, with no deletes, that is exactly the last 20 messages of the channel. It also proves that no message of a run of at most 20 messages in a channel is lost, whatever the buffer held before, and it works through the three end-to-end scenarios: record then delete, evicted then deleted, and never seen then deleted.

Channel ids, message ids and timestamps are only compared for equality. Each is modelled as a one-field datatype.

Choices the code makes:

- Take-by-id takes the **first** entry with the id (`position`), so `Take` does too.
- The code's `get_mut` never creates a buffer on delete, and a hit that empties a buffer leaves the channel's key in place. So `Take` keeps the key set unchanged.
- The platform never reuses a message id in a channel, but the code does not check this. The model assumes it only in the lemmas that say so: `TakeTwiceMisses`, `RepeatedDeleteFallsThrough` and `EvictedDeleteIsUnresolved` take distinct ids as a hypothesis; `PushBackKeepsUnique` and `OnMessageKeepsDistinctIds` assume the pushed id is new; `RemoveAtKeepsUnique` and `OnDeleteKeepsDistinctIds` assume the ids were distinct before; `TakeFindsEntry` and `RecordedMessageIsFound` assume distinct ids only for their clause about which record the take returns.

## Model

| member | source | states |
|---|---|---|
| RecentCache.PushBack | src/main.rs:27-35 | pushing onto a buffer of at most 20 entries leaves at most 20; below capacity the result is the old buffer plus the new entry; at or over capacity exactly one front entry is dropped and the new one is appended; the new entry is always last |
| RecentCache.Push | src/main.rs:24-36 | recording creates the channel's buffer if it was missing; the channel's buffer gains the entry at the back, dropping exactly one front entry at or over capacity; every other channel's buffer is unchanged; the 20-entry bound on all buffers is preserved |
| RecentCache.PushBufferOf | src/main.rs:26-35 | seen through the or-default view, a push changes only the pushed channel's buffer |
| RecentCache.Position | src/main.rs:75 | the scan returns an index exactly when some entry has the id; the index holds the id, and no earlier entry does |
| RecentCache.RemoveAt | src/main.rs:76 | removing index i shortens the buffer by one; entries before i stay in place; entries after i shift down by one in order; the multiset loses exactly the removed entry |
| RecentCache.Take | src/main.rs:72-84 | a hit happens exactly when the channel exists and holds the id; a hit returns the first matching entry's author, content and timestamp and removes exactly that index; a miss (absent id or unknown channel) leaves the cache identical; other channels and the key set never change; the bound is preserved |
| RecentCache.TakeTwiceMisses | src/main.rs:74-83 | when the channel's ids are distinct, a second take of an id that was just taken misses |
| RecentCache.RemoveAtKeepsUnique | src/main.rs:76 | removing an entry keeps a buffer's ids distinct |
| RecentCache.PushBackKeepsUnique | src/main.rs:27-35 | pushing a message whose id is not yet buffered keeps ids distinct, with or without eviction |
| RecentCache.WindowSlides | src/main.rs:33-34 | dropping from the front to keep the last n entries, then appending one and trimming again, equals trimming the whole longer sequence |
| RecentCache.PushBackSlidesWindow | src/main.rs:27-35 | pushing onto the 20-entry window of a sequence gives the 20-entry window of the extended sequence |
| SnipeStore.Set | src/main.rs:100 | the written channel's slot holds exactly the new record; every other channel's slot is unchanged; the written channel is added to the key set |
| SnipeStore.Get | src/main.rs:44 | reading returns a record exactly when the channel has one, and that record is the stored one |
| SnipeStore.GetAfterSet | src/main.rs:99-100 | reading a slot right after writing it returns the written record |
| SnipeStore.GetOtherAfterSet | src/main.rs:100 | writing one channel's slot does not change what another channel reads |
| SnipeStore.SetOverwrites | src/main.rs:100 | last write wins: writing twice to the same slot equals writing only the second record |
| SnipeStore.GetEmpty | src/main.rs:122 | the store the bot starts with reports nothing for any channel |
| Bot.Initial | src/main.rs:121-124 | at start-up no channel has a snipe and every channel's buffer is empty |
| Bot.Query | src/main.rs:43-60 | the snipe command answers with the stored record exactly when the channel has one, otherwise with the fixed "nothing to snipe" reply |
| Bot.OnMessage | src/main.rs:22-62 | any message, commands included, is cached before dispatch; the snipe store is untouched; exact content `!ping` gives Pong; exact content `msnipe` reports the channel's stored record or "nothing to snipe"; any other content gives no reply; the 20-entry bound is preserved |
| Bot.Resolve | src/main.rs:86-96 | the local result is used whenever there is one; the fallback's answer is used only when the local lookup missed |
| Bot.OnDelete | src/main.rs:64-105 | the cache loses exactly the taken entry; a local hit overwrites the channel's snipe with the first matching entry; a local miss with a fallback hit overwrites it with the fallback's record; a miss in both changes nothing at all; other channels' snipes and buffers are unchanged; the bound is preserved |
| Bot.ResolveIgnoresFallbackOnHit | src/main.rs:86-87 | on a local hit, the resolution is the same whatever the fallback |
| Bot.OnDeleteIgnoresFallbackOnHit | src/main.rs:86-100 | a delete that the local cache resolves has the same effect whatever the fallback |
| Bot.QueryAfterDelete | src/main.rs:98-100 | after a resolved delete, the snipe command in that channel reports exactly the resolved record |
| Bot.OnDeleteFallbackIdempotent | src/main.rs:86-100 | a delete that the local cache misses does not consume anything, so repeating it changes nothing further |
| Bot.OnMessageKeepsDistinctIds | src/main.rs:26-35 | recording a message whose id is new to its channel keeps every channel's ids distinct |
| Bot.OnDeleteKeepsDistinctIds | src/main.rs:74-77 | handling a delete keeps every channel's ids distinct |
| Scenarios.Replay | src/main.rs:24-36 | a run of messages never changes the snipe store and preserves the 20-entry bound |
| Scenarios.ReplayStep | src/main.rs:24-36 | one more message changes only its own channel's buffer, by a push |
| Scenarios.ReplayWindowStep | src/main.rs:27-35 | if the buffer is the 20-entry window of the run so far, it still is after one more message |
| Scenarios.ReplayKeepsRecentWindow | src/main.rs:24-36 | after any run, a channel's buffer is the last 20 of its previous contents followed by the run's messages for it, in arrival order |
| Scenarios.CacheHoldsMostRecent | src/main.rs:33-34 | from start-up, a run of at most 20 messages in one channel is buffered whole; a longer run leaves exactly its last 20 messages, oldest first |
| Scenarios.TakeFindsEntry | src/main.rs:74-77 | an entry held in a channel's buffer is always found by a take of its id; when the buffer's ids are distinct, the take returns exactly that entry's author, content and timestamp |
| Scenarios.RecordedMessageIsFound | src/main.rs:72-84 | for a run of at most 20 messages in a channel, whatever its buffer held before (within the bound), a take by the id of any message of the run hits afterwards (no lost updates); when the buffer's ids are distinct, the take returns that message's author, content and timestamp |
| Scenarios.RepeatedDeleteFallsThrough | src/main.rs:74-83 | with distinct ids, a repeated delete notification for a message resolved locally misses the local cache |
| Scenarios.SnipeAfterRecordAndDelete | src/main.rs:24-100 | on a fresh bot, a message recorded and then deleted is what the snipe command in its channel reports: same author, content and timestamp |
| Scenarios.EvictedDeleteIsUnresolved | src/main.rs:33-104 | on a fresh bot, after 21 messages with distinct ids in a channel, the first one has been evicted; deleting it with a fallback miss leaves the snipe command with nothing to report |
| Scenarios.UnknownDeleteIsUnresolved | src/main.rs:86-104 | in any state where the channel has no snipe yet, deleting an id that both the local cache and the fallback miss leaves the snipe command with nothing to report |

## Left out

- Chat platform I/O is not modelled. This covers `say`, `send_message`, building the embed (its author line "Last deleted message by ...", the deleted content as its description, its timestamp and the green colour 0x00ff00) and send-error handling. The bot's answer is the abstract `Reply` value.
- The platform's message cache `ctx.cache.message` is not modelled internally. It is the `Lookup` function parameter. Its author, content and timestamp projection is taken to be its result.
- The tokio mutexes and async scheduling are not modelled. Each handler is one atomic transition. The no-lost-updates property under concurrent recording is stated for a sequential replay (`Scenarios.RecordedMessageIsFound`).
- `main` is not modelled: reading the token from the environment, gateway intents and starting the client.
- `ready` and the `println!` logging are not modelled; they do not change state.
- The guild id passed to the delete handler is unused by the code and is not a parameter of `OnDelete`.
- Ids and timestamps are not modelled as 64-bit snowflakes or calendar times. Only their equality is used.

=== FILE: handler.dfy ===
/**
 * The bot's event handler: its state is the snipe store plus the
 * recent-message cache, and each platform event is one atomic transition.
 * A new message is cached and then dispatched as a command; a delete
 * notification is resolved through the cache, then through the platform's
 * own message cache, and a resolved record overwrites the channel's snipe.
 */
module Bot {
  import opened Wrappers
  import opened Types
  import opened RecentCache
  import opened SnipeStore

  /** An incoming message event, with the fields the handler uses. */
  datatype Message = Message(channel: ChannelId, id: MessageId, author: string, content: string, timestamp: Timestamp) {

    /** The cache entry recorded for this message. */
    function AsEntry(): Entry {
      Entry(id, author, content, timestamp)
    }
  }

  /** The handler's two maps. */
  datatype Handler = Handler(snipes: Store, cache: Cache)

  /** What the bot sends back to the channel, if anything. */
  datatype Reply =
    | Silent                  // not a command
    | Pong                    // answer to the ping command
    | Sniped(record: Record)  // the channel's last deleted message
    | NothingToSnipe          // snipe command, but no deletion was resolved in the channel

  /** The handler after an event, and the reply the event produced. */
  datatype Outcome = Outcome(handler: Handler, reply: Reply)

  /** The platform's own message cache, consulted when the local cache misses. */
  type Lookup = (ChannelId, MessageId) -> Option<Record>

  const PingCommand: string := "!ping"
  const SnipeCommand: string := "msnipe"

  /** The handler as the bot starts: both maps empty. */
  function Initial(): (h: Handler)
    ensures forall c :: Get(h.snipes, c) == None && BufferOf(h.cache, c) == []
  {
    Handler(map[], map[])
  }

  /** The reachable-state invariant: no channel buffers more than `Capacity` messages. */
  predicate Valid(h: Handler) {
    Bounded(h.cache)
  }

  /** The answer to the snipe command in channel `c`, read from the store. */
  function Query(s: Store, c: ChannelId): (r: Reply)
    ensures r.Sniped? || r == NothingToSnipe
    ensures r.Sniped? <==> Get(s, c).Some?
    ensures r.Sniped? ==> Get(s, c) == Some(r.record)
  {
    match Get(s, c)
    case Some(rec) => Sniped(rec)
    case None => NothingToSnipe
  }

  /**
   * A message arrives: it is recorded in its channel's buffer whatever its
   * content, and then matched, by exact content, against the two commands.
   * The snipe store is only read.
   */
  function OnMessage(h: Handler, m: Message): (o: Outcome)
    ensures o.handler.snipes == h.snipes
    ensures o.handler.cache == Push(h.cache, m.channel, m.AsEntry())
    ensures m.content == PingCommand ==> o.reply == Pong
    ensures m.content == SnipeCommand ==>
      if m.channel in h.snipes then o.reply == Sniped(h.snipes[m.channel]) else o.reply == NothingToSnipe
    ensures m.content != PingCommand && m.content != SnipeCommand ==> o.reply == Silent
    ensures Valid(h) ==> Valid(o.handler)
  {
    var cached := Handler(h.snipes, Push(h.cache, m.channel, m.AsEntry()));
    var reply :=
      if m.content == PingCommand then Pong
      else if m.content == SnipeCommand then Query(cached.snipes, m.channel)
      else Silent;
    Outcome(cached, reply)
  }

  /** Two-tier lookup: the local result when there is one, otherwise the fallback's. */
  function Resolve(local: Option<Record>, fallback: Lookup, c: ChannelId, id: MessageId): (r: Option<Record>)
    ensures local.Some? ==> r == local
    ensures local.None? ==> r == fallback(c, id)
  {
    if local.Some? then local else fallback(c, id)
  }

  /**
   * Message `id` was deleted in channel `c`. The local cache is searched
   * (and a hit consumed), the fallback is consulted on a miss, and a
   * resolved record overwrites the channel's snipe. An unresolved deletion
   * changes nothing.
   */
  function OnDelete(h: Handler, fallback: Lookup, c: ChannelId, id: MessageId): (h': Handler)
    ensures h'.cache == Take(h.cache, c, id).cache
    ensures c in h.cache && Contains(h.cache[c], id) ==>
      h'.snipes == Set(h.snipes, c, h.cache[c][Position(h.cache[c], id).value].Summary())
    ensures !(c in h.cache && Contains(h.cache[c], id)) && fallback(c, id).Some? ==>
      h'.snipes == Set(h.snipes, c, fallback(c, id).value)
    ensures !(c in h.cache && Contains(h.cache[c], id)) && fallback(c, id).None? ==> h' == h
    ensures forall d :: d != c ==> Get(h'.snipes, d) == Get(h.snipes, d) && BufferOf(h'.cache, d) == BufferOf(h.cache, d)
    ensures Valid(h) ==> Valid(h')
  {
    var taken := Take(h.cache, c, id);
    var snipes :=
      match Resolve(taken.found, fallback, c, id)
      case Some(rec) => Set(h.snipes, c, rec)
      case None => h.snipes;
    Handler(snipes, taken.cache)
  }

  /** The fallback is never consulted when the local cache hits: any two fallbacks give the same result. */
  lemma ResolveIgnoresFallbackOnHit(local: Option<Record>, f1: Lookup, f2: Lookup, c: ChannelId, id: MessageId)
    requires local.Some?
    ensures Resolve(local, f1, c, id) == Resolve(local, f2, c, id) == local
  {
  }

  /** A delete the local cache hits does not depend on the fallback at all. */
  lemma OnDeleteIgnoresFallbackOnHit(h: Handler, f1: Lookup, f2: Lookup, c: ChannelId, id: MessageId)
    requires c in h.cache && Contains(h.cache[c], id)
    ensures OnDelete(h, f1, c, id) == OnDelete(h, f2, c, id)
  {
  }

  /** The snipe command reports exactly what the last resolved delete in the channel stored. */
  lemma QueryAfterDelete(h: Handler, fallback: Lookup, c: ChannelId, id: MessageId, m: Message)
    requires Resolve(Take(h.cache, c, id).found, fallback, c, id).Some?
    requires m.channel == c && m.content == SnipeCommand
    ensures OnMessage(OnDelete(h, fallback, c, id), m).reply ==
      Sniped(Resolve(Take(h.cache, c, id).found, fallback, c, id).value)
  {
  }

  /**
   * A deletion resolved only through the fallback leaves the local cache as
   * it was, so repeating it changes nothing further.
   */
  lemma OnDeleteFallbackIdempotent(h: Handler, fallback: Lookup, c: ChannelId, id: MessageId)
    requires !(c in h.cache && Contains(h.cache[c], id))
    ensures OnDelete(OnDelete(h, fallback, c, id), fallback, c, id) == OnDelete(h, fallback, c, id)
  {
  }

  /** No channel buffers two messages with the same id (the platform never reuses an id in a channel). */
  predicate DistinctIds(h: Handler) {
    forall c :: c in h.cache ==> UniqueIds(h.cache[c])
  }

  /** Recording a message whose id is new to its channel keeps ids distinct. */
  lemma OnMessageKeepsDistinctIds(h: Handler, m: Message)
    requires DistinctIds(h) && !Contains(BufferOf(h.cache, m.channel), m.id)
    ensures DistinctIds(OnMessage(h, m).handler)
  {
    PushBackKeepsUnique(BufferOf(h.cache, m.channel), m.AsEntry());
  }

  /** Resolving a deletion keeps ids distinct. */
  lemma OnDeleteKeepsDistinctIds(h: Handler, fallback: Lookup, c: ChannelId, id: MessageId)
    requires DistinctIds(h)
    ensures DistinctIds(OnDelete(h, fallback, c, id))
  {
    if c in h.cache && Contains(h.cache[c], id) {
      RemoveAtKeepsUnique(h.cache[c], Position(h.cache[c], id).value);
    }
  }
}

=== FILE: recent_cache.dfy ===
/**
 * The recent-message cache: for every channel, a bounded FIFO buffer of the
 * last messages seen there, so that a delete notification (which carries only
 * an id) can be resolved to the deleted message's author, content and time.
 */
module RecentCache {
  import opened Wrappers
  import opened Types

  /** How many messages a channel's buffer keeps. */
  const Capacity: nat := 20

  type Buffer = seq<Entry>
  type Cache = map<ChannelId, Buffer>

  /** The result of taking an entry out of the cache: what was found, and the cache after. */
  datatype Taken = Taken(found: Option<Record>, cache: Cache)

  /** The channel's buffer; a channel never seen has the empty one. */
  function BufferOf(cache: Cache, c: ChannelId): Buffer {
    if c in cache then cache[c] else []
  }

  /** Every buffer respects the capacity. */
  predicate Bounded(cache: Cache) {
    forall c :: c in cache ==> |cache[c]| <= Capacity
  }

  /** Some entry of `b` carries `id`. */
  predicate Contains(b: Buffer, id: MessageId) {
    exists j :: 0 <= j < |b| && b[j].id == id
  }

  /** No two entries of `b` carry the same id. */
  predicate UniqueIds(b: Buffer) {
    forall i, j :: 0 <= i < j < |b| ==> b[i].id != b[j].id
  }

  /** The last `n` elements of `s`, in their original order (all of `s` when it is shorter). */
  function Window<T>(s: seq<T>, n: nat): (w: seq<T>)
    ensures |w| == if |s| <= n then |s| else n
  {
    if |s| <= n then s else s[|s| - n..]
  }

  /**
   * Appends `e` at the back of a buffer and, if the buffer then holds more
   * than `Capacity` entries, drops the front one.
   */
  function PushBack(b: Buffer, e: Entry): (r: Buffer)
    ensures |b| <= Capacity ==> |r| <= Capacity
    ensures |b| < Capacity ==> r == b + [e]
    ensures |b| >= Capacity ==> r == b[1..] + [e]
    ensures |r| > 0 && r[|r| - 1] == e
  {
    var pushed := b + [e];
    if |pushed| > Capacity then pushed[1..] else pushed
  }

  /**
   * Records an incoming message in channel `c`, creating the channel's buffer
   * if it has none. Other channels are left alone.
   */
  function Push(cache: Cache, c: ChannelId, e: Entry): (r: Cache)
    ensures r.Keys == cache.Keys + {c}
    ensures |BufferOf(cache, c)| < Capacity ==> r[c] == BufferOf(cache, c) + [e]
    ensures |BufferOf(cache, c)| >= Capacity ==> r[c] == BufferOf(cache, c)[1..] + [e]
    ensures |r[c]| > 0 && r[c][|r[c]| - 1] == e
    ensures forall d :: d in cache && d != c ==> r[d] == cache[d]
    ensures Bounded(cache) ==> Bounded(r)
  {
    var b := PushBack(BufferOf(cache, c), e);
    var r := cache[c := b];
    assert r[c] == b;
    assert Bounded(cache) ==> Bounded(r) by {
      if Bounded(cache) {
        assert |BufferOf(cache, c)| <= Capacity;
        forall d | d in r
          ensures |r[d]| <= Capacity
        {
          if d != c {
            assert r[d] == cache[d];
          }
        }
      }
    }
    r
  }

  /** Seen through `BufferOf`, a push changes exactly the pushed channel's buffer. */
  lemma PushBufferOf(cache: Cache, c: ChannelId, e: Entry, d: ChannelId)
    ensures BufferOf(Push(cache, c, e), d) == if d == c then PushBack(BufferOf(cache, c), e) else BufferOf(cache, d)
  {
  }

  /** The index of the first entry of `b` carrying `id`, if any. */
  function Position(b: Buffer, id: MessageId): (r: Option<nat>)
    ensures r.None? <==> !Contains(b, id)
    ensures r.Some? ==> r.value < |b| && b[r.value].id == id
    ensures r.Some? ==> forall j :: 0 <= j < r.value ==> b[j].id != id
  {
    if |b| == 0 then None
    else if b[0].id == id then Some(0)
    else
      match Position(b[1..], id)
      case None => None
      case Some(k) => Some(k + 1)
  }

  /** `b` with the entry at index `i` removed; the others keep their order. */
  function RemoveAt(b: Buffer, i: nat): (r: Buffer)
    requires i < |b|
    ensures |r| == |b| - 1
    ensures forall j :: 0 <= j < i ==> r[j] == b[j]
    ensures forall j :: i <= j < |r| ==> r[j] == b[j + 1]
    ensures multiset(r) + multiset{b[i]} == multiset(b)
  {
    assert b == b[..i] + [b[i]] + b[i + 1..];
    b[..i] + b[i + 1..]
  }

  /**
   * Looks up the first entry of channel `c` carrying `id`. On a hit it is
   * removed from the buffer and its summary returned; on a miss (the id is
   * absent, or the channel was never seen) nothing changes.
   */
  function Take(cache: Cache, c: ChannelId, id: MessageId): (t: Taken)
    ensures t.found.Some? <==> c in cache && Contains(cache[c], id)
    ensures t.found.None? ==> t.cache == cache
    ensures t.found.Some? ==>
      var k := Position(cache[c], id).value;
      && t.found.value == cache[c][k].Summary()
      && t.cache == cache[c := RemoveAt(cache[c], k)]
    ensures t.cache.Keys == cache.Keys
    ensures forall d :: d in cache && d != c ==> t.cache[d] == cache[d]
    ensures Bounded(cache) ==> Bounded(t.cache)
  {
    if c !in cache then Taken(None, cache)
    else
      match Position(cache[c], id)
      case None => Taken(None, cache)
      case Some(k) => Taken(Some(cache[c][k].Summary()), cache[c := RemoveAt(cache[c], k)])
  }

  /** A hit removes the one entry carrying `id`, so taking the same id again misses. */
  lemma {:induction false} TakeTwiceMisses(cache: Cache, c: ChannelId, id: MessageId)
    requires c in cache && UniqueIds(cache[c])
    requires Take(cache, c, id).found.Some?
    ensures Take(Take(cache, c, id).cache, c, id).found.None?
  {
    var b := cache[c];
    var k := Position(b, id).value;
    var r := RemoveAt(b, k);
    forall j | 0 <= j < |r|
      ensures r[j].id != id
    {
      if k <= j {
        assert r[j] == b[j + 1] && b[k].id == id;
      }
    }
    assert Take(cache, c, id).cache[c] == r;
  }

  /** Removing an entry keeps the remaining ids distinct. */
  lemma {:induction false} RemoveAtKeepsUnique(b: Buffer, i: nat)
    requires i < |b| && UniqueIds(b)
    ensures UniqueIds(RemoveAt(b, i))
  {
    var r := RemoveAt(b, i);
    forall x, y | 0 <= x < y < |r|
      ensures r[x].id != r[y].id
    {
      var p := if x < i then x else x + 1;
      var q := if y < i then y else y + 1;
      assert r[x] == b[p] && r[y] == b[q] && p < q;
    }
  }

  /** Pushing a message whose id is new to the channel keeps the ids distinct. */
  lemma {:induction false} PushBackKeepsUnique(b: Buffer, e: Entry)
    requires UniqueIds(b) && !Contains(b, e.id)
    ensures UniqueIds(PushBack(b, e))
  {
    var s := b + [e];
    forall x, y | 0 <= x < y < |s|
      ensures s[x].id != s[y].id
    {
      if y == |b| {
        assert s[x] == b[x];
      } else {
        assert s[x] == b[x] && s[y] == b[y];
      }
    }
    var r := PushBack(b, e);
    if |s| > Capacity {
      forall x, y | 0 <= x < y < |r|
        ensures r[x].id != r[y].id
      {
        assert r[x] == s[x + 1] && r[y] == s[y + 1];
      }
    }
  }

  /** Sliding a window along a growing sequence: the window of the window plus one equals the window of the whole plus one. */
  lemma {:induction false} WindowSlides<T>(s: seq<T>, e: T, n: nat)
    ensures Window(Window(s, n) + [e], n) == Window(s + [e], n)
  {
    if |s| > n {
      var w := Window(s, n);
      var lhs := Window(w + [e], n);
      var rhs := Window(s + [e], n);
      assert |lhs| == |rhs|;
      forall i | 0 <= i < |lhs|
        ensures lhs[i] == rhs[i]
      {
        if i < |lhs| - 1 {
          assert lhs[i] == (w + [e])[i + |w| + 1 - n] == s[|s| - n + i + 1];
          assert rhs[i] == (s + [e])[|s| + 1 - n + i];
        }
      }
    }
  }

  /** Pushing onto a full window of a run evicts exactly what the window of the longer run drops. */
  lemma PushBackSlidesWindow(s: Buffer, e: Entry)
    ensures PushBack(Window(s, Capacity), e) == Window(s + [e], Capacity)
  {
    WindowSlides(s, e, Capacity);
    var w := Window(s, Capacity);
    if |w| < Capacity {
      assert Window(w + [e], Capacity) == w + [e];
    }
  }
}

=== FILE: scenarios.dfy ===
/**
 * Properties of whole runs of the handler: a stream of incoming messages
 * replayed in arrival order, followed by deletions and snipe commands.
 */
module Scenarios {
  import opened Wrappers
  import opened Types
  import opened RecentCache
  import opened SnipeStore
  import opened Bot

  /** The handler after the messages `msgs` arrived, in order, starting from `h`. */
  function Replay(h: Handler, msgs: seq<Message>): (r: Handler)
    ensures r.snipes == h.snipes
    ensures Valid(h) ==> Valid(r)
    decreases |msgs|
  {
    if |msgs| == 0 then h
    else OnMessage(Replay(h, msgs[..|msgs| - 1]), msgs[|msgs| - 1]).handler
  }

  /** The cache entries of the messages of `msgs` sent to channel `c`, in arrival order. */
  function EntriesIn(msgs: seq<Message>, c: ChannelId): seq<Entry>
    decreases |msgs|
  {
    if |msgs| == 0 then []
    else
      var init := EntriesIn(msgs[..|msgs| - 1], c);
      if msgs[|msgs| - 1].channel == c then init + [msgs[|msgs| - 1].AsEntry()] else init
  }

  /** Every message sent to `c` contributes its entry to `EntriesIn(msgs, c)`. */
  lemma {:induction false} EntriesInHas(msgs: seq<Message>, c: ChannelId, i: nat)
    requires i < |msgs| && msgs[i].channel == c
    ensures msgs[i].AsEntry() in EntriesIn(msgs, c)
    decreases |msgs|
  {
    if i < |msgs| - 1 {
      var init := msgs[..|msgs| - 1];
      assert init[i] == msgs[i];
      EntriesInHas(init, c, i);
    }
  }

  /** The cache entries of all of `msgs`, in arrival order. */
  function EntriesOf(msgs: seq<Message>): (es: seq<Entry>)
    ensures |es| == |msgs|
    ensures forall i :: 0 <= i < |msgs| ==> es[i] == msgs[i].AsEntry()
  {
    seq(|msgs|, i requires 0 <= i < |msgs| => msgs[i].AsEntry())
  }

  /** Every message of `msgs` was sent to channel `c`. */
  predicate AllIn(msgs: seq<Message>, c: ChannelId) {
    forall i :: 0 <= i < |msgs| ==> msgs[i].channel == c
  }

  /** When every message went to `c`, the entries for `c` are the entries of all messages. */
  lemma {:induction false} EntriesInAll(msgs: seq<Message>, c: ChannelId)
    requires AllIn(msgs, c)
    ensures EntriesIn(msgs, c) == EntriesOf(msgs)
    decreases |msgs|
  {
    if |msgs| > 0 {
      var init := msgs[..|msgs| - 1];
      assert AllIn(init, c) by {
        forall i | 0 <= i < |init|
          ensures init[i].channel == c
        {
          assert init[i] == msgs[i];
        }
      }
      EntriesInAll(init, c);
      assert EntriesOf(msgs) == EntriesOf(init) + [msgs[|msgs| - 1].AsEntry()];
    }
  }

  /** One more message changes only its own channel's buffer, by a push. */
  lemma ReplayStep(h: Handler, msgs: seq<Message>, c: ChannelId)
    requires |msgs| > 0
    ensures
      var before := BufferOf(Replay(h, msgs[..|msgs| - 1]).cache, c);
      var m := msgs[|msgs| - 1];
      BufferOf(Replay(h, msgs).cache, c) == if m.channel == c then PushBack(before, m.AsEntry()) else before
  {
    var m := msgs[|msgs| - 1];
    PushBufferOf(Replay(h, msgs[..|msgs| - 1]).cache, m.channel, m.AsEntry(), c);
  }

  /** The entries for `c` grow by the last message exactly when it was sent to `c`. */
  lemma EntriesInStep(msgs: seq<Message>, c: ChannelId)
    requires |msgs| > 0
    ensures
      var m := msgs[|msgs| - 1];
      EntriesIn(msgs, c) == EntriesIn(msgs[..|msgs| - 1], c) + if m.channel == c then [m.AsEntry()] else []
  {
  }

  /** The inductive step of `ReplayKeepsRecentWindow`: one more message keeps the buffer a window of the run. */
  lemma ReplayWindowStep(h: Handler, msgs: seq<Message>, c: ChannelId)
    requires |msgs| > 0
    requires BufferOf(Replay(h, msgs[..|msgs| - 1]).cache, c) == Window(BufferOf(h.cache, c) + EntriesIn(msgs[..|msgs| - 1], c), Capacity)
    ensures BufferOf(Replay(h, msgs).cache, c) == Window(BufferOf(h.cache, c) + EntriesIn(msgs, c), Capacity)
  {
    var b := BufferOf(h.cache, c);
    var m := msgs[|msgs| - 1];
    var prefix := b + EntriesIn(msgs[..|msgs| - 1], c);
    ReplayStep(h, msgs, c);
    EntriesInStep(msgs, c);
    if m.channel == c {
      PushBackSlidesWindow(prefix, m.AsEntry());
      assert b + EntriesIn(msgs, c) == prefix + [m.AsEntry()];
    } else {
      assert b + EntriesIn(msgs, c) == prefix;
    }
  }

  /**
   * FIFO eviction over a whole run: a channel's buffer always holds the last
   * `Capacity` entries of what it held before followed by the messages that
   * arrived in it, in arrival order.
   */
  lemma {:induction false} ReplayKeepsRecentWindow(h: Handler, msgs: seq<Message>, c: ChannelId)
    requires |BufferOf(h.cache, c)| <= Capacity
    ensures BufferOf(Replay(h, msgs).cache, c) == Window(BufferOf(h.cache, c) + EntriesIn(msgs, c), Capacity)
    decreases |msgs|
  {
    if |msgs| == 0 {
      assert BufferOf(h.cache, c) + EntriesIn(msgs, c) == BufferOf(h.cache, c);
    } else {
      ReplayKeepsRecentWindow(h, msgs[..|msgs| - 1], c);
      ReplayWindowStep(h, msgs, c);
    }
  }

  /** The window of a run's entries is the entries of the run's last `Capacity` messages. */
  lemma WindowOfEntries(msgs: seq<Message>)
    requires |msgs| >= Capacity
    ensures Window(EntriesOf(msgs), Capacity) == EntriesOf(msgs[|msgs| - Capacity..])
  {
    var all := EntriesOf(msgs);
    var tail := EntriesOf(msgs[|msgs| - Capacity..]);
    forall i | 0 <= i < Capacity
      ensures tail[i] == all[|msgs| - Capacity + i]
    {
    }
  }

  /** After a run in one channel from the start, its buffer holds exactly the most recent `Capacity` messages, oldest first. */
  lemma CacheHoldsMostRecent(msgs: seq<Message>, c: ChannelId)
    requires AllIn(msgs, c)
    ensures |msgs| <= Capacity ==> BufferOf(Replay(Initial(), msgs).cache, c) == EntriesOf(msgs)
    ensures |msgs| >= Capacity ==> BufferOf(Replay(Initial(), msgs).cache, c) == EntriesOf(msgs[|msgs| - Capacity..])
  {
    ReplayKeepsRecentWindow(Initial(), msgs, c);
    EntriesInAll(msgs, c);
    assert [] + EntriesOf(msgs) == EntriesOf(msgs);
    if |msgs| >= Capacity {
      WindowOfEntries(msgs);
    }
  }

  /** An element of `s` at index `p` in the last `Capacity` positions is in the window. */
  lemma InWindow(s: Buffer, p: nat)
    requires p < |s| && |s| - Capacity <= p
    ensures s[p] in Window(s, Capacity)
  {
    if |s| > Capacity {
      assert Window(s, Capacity)[p - (|s| - Capacity)] == s[p];
    }
  }

  /** When at most `Capacity` entries follow a bounded buffer, each of them is still in the window. */
  lemma RecentInWindow(b: Buffer, es: Buffer, e: Entry)
    requires |b| <= Capacity && |es| <= Capacity && e in es
    ensures e in Window(b + es, Capacity)
  {
    var k :| 0 <= k < |es| && es[k] == e;
    var s := b + es;
    assert s[|b| + k] == e;
    InWindow(s, |b| + k);
  }

  /** A buffered entry can be taken by its id; with distinct ids, the take returns that entry. */
  lemma TakeFindsEntry(cache: Cache, c: ChannelId, e: Entry)
    requires e in BufferOf(cache, c)
    ensures Take(cache, c, e.id).found.Some?
    ensures UniqueIds(BufferOf(cache, c)) ==> Take(cache, c, e.id).found == Some(e.Summary())
  {
    var buf := cache[c];
    var j :| 0 <= j < |buf| && buf[j] == e;
    assert Contains(buf, e.id);
    if UniqueIds(buf) {
      var p := Position(buf, e.id).value;
      assert buf[p].id == buf[j].id;
    }
  }

  /**
   * No message is lost: every message of a run of at most `Capacity`
   * messages in a channel can be taken back by its id afterwards, whatever
   * the channel's buffer held before; with distinct ids, the take returns
   * that very message's author, content and timestamp.
   */
  lemma RecordedMessageIsFound(h: Handler, msgs: seq<Message>, c: ChannelId, i: nat)
    requires |BufferOf(h.cache, c)| <= Capacity && |EntriesIn(msgs, c)| <= Capacity
    requires i < |msgs| && msgs[i].channel == c
    ensures Take(Replay(h, msgs).cache, c, msgs[i].id).found.Some?
    ensures UniqueIds(BufferOf(Replay(h, msgs).cache, c)) ==>
      Take(Replay(h, msgs).cache, c, msgs[i].id).found == Some(msgs[i].AsEntry().Summary())
  {
    var e := msgs[i].AsEntry();
    ReplayKeepsRecentWindow(h, msgs, c);
    EntriesInHas(msgs, c, i);
    RecentInWindow(BufferOf(h.cache, c), EntriesIn(msgs, c), e);
    var cache := Replay(h, msgs).cache;
    TakeFindsEntry(cache, c, e);
  }

  /**
   * With distinct ids, a delete the local cache resolved cannot be resolved
   * locally again: a repeated notification falls through to the fallback.
   */
  lemma RepeatedDeleteFallsThrough(h: Handler, fallback: Lookup, c: ChannelId, id: MessageId)
    requires c in h.cache && UniqueIds(h.cache[c]) && Contains(h.cache[c], id)
    ensures Take(OnDelete(h, fallback, c, id).cache, c, id).found.None?
  {
    TakeTwiceMisses(h.cache, c, id);
  }

  /** A message recorded and then deleted is what the snipe command reports. */
  lemma SnipeAfterRecordAndDelete(m: Message, fallback: Lookup, q: Message)
    requires q.channel == m.channel && q.content == SnipeCommand
    ensures
      var recorded := OnMessage(Initial(), m).handler;
      var deleted := OnDelete(recorded, fallback, m.channel, m.id);
      OnMessage(deleted, q).reply == Sniped(Record(m.author, m.content, m.timestamp))
  {
    var recorded := OnMessage(Initial(), m).handler;
    assert recorded.cache[m.channel] == [m.AsEntry()];
    assert recorded.cache[m.channel][0].id == m.id;
  }

  /**
   * A message pushed out of its channel's buffer by `Capacity` later ones
   * cannot be resolved locally; if the fallback misses too, the snipe
   * command has nothing to report.
   */
  lemma EvictedDeleteIsUnresolved(msgs: seq<Message>, c: ChannelId, fallback: Lookup, q: Message)
    requires |msgs| == Capacity + 1 && AllIn(msgs, c)
    requires forall j :: 1 <= j < |msgs| ==> msgs[j].id != msgs[0].id
    requires fallback(c, msgs[0].id).None?
    requires q.channel == c && q.content == SnipeCommand
    ensures
      var recorded := Replay(Initial(), msgs);
      OnMessage(OnDelete(recorded, fallback, c, msgs[0].id), q).reply == NothingToSnipe
  {
    var recorded := Replay(Initial(), msgs);
    CacheHoldsMostRecent(msgs, c);
    var buf := BufferOf(recorded.cache, c);
    assert buf == EntriesOf(msgs[1..]);
    forall j | 0 <= j < |buf|
      ensures buf[j].id != msgs[0].id
    {
      assert buf[j] == msgs[j + 1].AsEntry();
    }
    assert !Contains(buf, msgs[0].id);
  }

  /**
   * A deletion that neither the local cache nor the fallback can resolve,
   * in a channel with no snipe yet, leaves the snipe command with nothing
   * to report.
   */
  lemma UnknownDeleteIsUnresolved(h: Handler, c: ChannelId, id: MessageId, fallback: Lookup, q: Message)
    requires c !in h.snipes && !(c in h.cache && Contains(h.cache[c], id))
    requires fallback(c, id).None?
    requires q.channel == c && q.content == SnipeCommand
    ensures OnMessage(OnDelete(h, fallback, c, id), q).reply == NothingToSnipe
  {
  }
}

=== FILE: snipe_store.dfy ===
/**
 * The snipe store: for every channel, a single slot holding the summary of
 * the most recently resolved deleted message. Writes overwrite; nothing is
 * ever removed.
 */
module SnipeStore {
  import opened Wrappers
  import opened Types

  type Store = map<ChannelId, Record>

  /** Overwrites channel `c`'s slot with `r`; every other channel is unchanged. */
  function Set(s: Store, c: ChannelId, r: Record): (s': Store)
    ensures s'.Keys == s.Keys + {c}
    ensures s'[c] == r
    ensures forall d :: d in s && d != c ==> s'[d] == s[d]
  {
    s[c := r]
  }

  /** Reads channel `c`'s slot, if a deletion was ever resolved there. */
  function Get(s: Store, c: ChannelId): (r: Option<Record>)
    ensures r.Some? <==> c in s
    ensures r.Some? ==> r.value == s[c]
  {
    if c in s then Some(s[c]) else None
  }

  /** Reading a slot right after writing it yields exactly what was written. */
  lemma GetAfterSet(s: Store, c: ChannelId, r: Record)
    ensures Get(Set(s, c, r), c) == Some(r)
  {
  }

  /** Writing a slot does not disturb what another channel reads. */
  lemma GetOtherAfterSet(s: Store, c: ChannelId, d: ChannelId, r: Record)
    requires d != c
    ensures Get(Set(s, c, r), d) == Get(s, d)
  {
  }

  /** Last write wins: a second write to the same slot erases the first. */
  lemma SetOverwrites(s: Store, c: ChannelId, r1: Record, r2: Record)
    ensures Set(Set(s, c, r1), c, r2) == Set(s, c, r2)
  {
  }

  /** An empty store has nothing to report for any channel. */
  lemma GetEmpty(c: ChannelId)
    ensures Get(map[], c) == None
  {
  }
}

=== FILE: types.dfy ===
/**
 * The entities the snipe bot handles. Channel and message ids and timestamps
 * are platform values the bot only ever compares for equality, so each is a
 * thin wrapper around a number and nothing else is done with it.
 */
module Types {

  /** A channel: the key of both per-channel maps. */
  datatype ChannelId = ChannelId(raw: nat)

  /** A message id, unique within a channel's message stream. */
  datatype MessageId = MessageId(raw: nat)

  /** The creation time of a message, carried along unchanged. */
  datatype Timestamp = Timestamp(raw: int)

  /** What the snipe store keeps per channel: author name, content, timestamp. */
  datatype Record = Record(author: string, content: string, timestamp: Timestamp)

  /** One slot of a channel's recent-message buffer. */
  datatype Entry = Entry(id: MessageId, author: string, content: string, timestamp: Timestamp) {

    /** The entry without its id, as it is copied into the snipe store. */
    function Summary(): Record {
      Record(author, content, timestamp)
    }
  }
}

=== FILE: wrappers.dfy ===
/** The optional-value datatype used for lookups that can miss. */
module Wrappers {

  datatype Option<+T> = None | Some(value: T)
}
